=== FILE: README.md ===
# jquery.async in Dafny

A model of the promise combinators of `jquery.async.js`: `$.promisify`,
`$.parallel`, `$.series`, `$.asyncEach` and `$.polling`, with the helpers
`isDeferred` and `isAjax`. Every jQuery Deferred is reduced to an abstract
settlement: never settled, resolved with positional arguments, or rejected
with positional arguments. Under that reduction each combinator is a pure
function, and the polling handle is a state record with pure transitions over
discrete events.

Files, one module each:

- `js_values.dfy` (`JsValues`): JavaScript values, including truthiness,
  property reads and `item[0]`. Also the array-or-variadic calling
  convention, and the caller's functions (`Host`), each of which returns a
  value or throws one. `CallEach` models the in-order `map` that calls
  caller-supplied functions, records each call as an `Effect`, and stops at
  the first call that throws.
- `deferreds.dfy` (`Deferreds`): the structural `isDeferred` test (truthy,
  with a callable `promise` member) and the `isAjax` test (additionally an
  own `readyState`). Also `$.promisify`, the at-most-once settling of a
  Deferred, and `When`.
- `parallel.dfy` (`Parallel`), `series.dfy` (`Series`),
  `async_each.dfy` (`AsyncEach`), `polling.dfy` (`Polling`).

`When` is an explicit assumption about jQuery's `$.when`, which is not part
of this model:

- Its done callback runs iff every input resolves. An input that is not
  deferred counts as resolved with itself. "Deferred" means the same
  `promise`-member test as `isDeferred`, so a foreign thenable, such as a
  native Promise, counts as a plain value (see "## Left out").
- A single input passes its own resolve arguments through.
- With zero or several inputs, there is one entry per input. An entry is the
  input's single value, an array of its arguments when it resolved with more
  than one, or `undefined` when it resolved with none.
- Which rejection `$.when` reports is not modelled. Neither `$.parallel` nor
  `$.asyncEach` attaches a failure handler to it.

The model follows the code, also where it departs from what such combinators usually promise:

- `$.parallel` and `$.asyncEach` never reject. A rejected input leaves the
  result unsettled, because only a done handler is attached.
- The `$.asyncEach` iteratee receives `(item, index)`, not the collection.
- A polled action that throws, or whose result rejects, never re-arms the timer. Neither does one whose result passes `isDeferred` but has no `then`: the callback throws a TypeError on it (see Findings).

Two tests expect behaviour the code does not have:

- test/test.js:60 passes a Deferred and an array as producers. `$.parallel`
  throws a TypeError when it reaches the Deferred (`DeferredAsProducerThrows`).
- test/test.js:68-82 expects a bare value from a single producer. The code
  resolves with a one-element array (`SingleProducerIsWrapped`).

## Model

| member | source | states |
|---|---|---|
| `Deferreds.Promisify` | jquery.async.js:119-127 | A deferred is returned unchanged. Any other value becomes a deferred (not ajax-like) resolved with exactly that one value. |
| `Deferreds.PromisifyIdempotent` | jquery.async.js:119-122 | `promisify(promisify(x))` equals `promisify(x)`. The result differs from the input only when the input was not deferred. |
| `Deferreds.PromisifyLiftsFalsy` | jquery.async.js:30-32 | `null`, `undefined`, `0`, `''` and `false` are never deferred, so each is wrapped in a deferred resolved with itself. |
| `Deferreds.IsDeferred` | jquery.async.js:30-32 | A value is deferred iff it is truthy and its `promise` member is a function. Only objects carry members here, so every deferred is an object, and no falsy value is deferred. |
| `Deferreds.IsAjax` | jquery.async.js:34-36 | An ajax-like value is deferred and has `readyState` as an own property. An inherited `readyState` does not count. |
| `Deferreds.Outcome` | jquery.async.js:119-127 | A value adopted through its `promise` member settles as its own Deferred when it is one, and otherwise, as `$.promisify` lifts it, resolves with itself. |
| `JsValues.Index0` | jquery.async.js:72 | `item[0]` throws exactly on `null` and `undefined`. On an array it reads the first element, on a string the one-character string at position 0, and `undefined` when either is empty. On an object it reads property `"0"`, own before inherited. On booleans, numbers and functions it reads `undefined`. |
| `JsValues.CallEach` | jquery.async.js:62-64 | Callees are called in order, each once with its own arguments, and their results are kept in order. Nothing is thrown iff every call returns. Otherwise the first call that throws ends the `map` and its exception propagates: a non-function callee throws a TypeError without being called, a function that throws has been called, and no later callee is called. |
| `JsValues.CallEachStopsAtFirstThrow` | jquery.async.js:62-64 | Every call returns iff nothing is thrown. Otherwise the call after the returned ones throws exactly the recorded exception, and it was logged as a call iff the callee is a function. |
| `Parallel.Parallel` | jquery.async.js:57-77 | Producers come from the array argument or from all the arguments. Each is called once, with no arguments, in input order, before one await of all results. The call throws iff some producer is not a function or throws. Then the first such producer's exception propagates, no later producer runs and nothing is awaited. The returned promise is never rejected. |
| `Parallel.Joined` | jquery.async.js:66-75 | One producer: a one-element array holding its first resolve argument. Otherwise: one entry per producer, in input order, reduced to `item[0]` iff the producer's deferred is ajax-like. Resolves iff every input resolves and no `item[0]` read throws. Never rejects. |
| `Parallel.ParallelJoinsProducerResults` | jquery.async.js:62-67 | When every producer returns, the result settles as `Joined` over producer i's result at position i, whatever the completion order. |
| `Parallel.ThrowingProducerStopsParallel` | jquery.async.js:62-64 | A first producer that throws ends `$.parallel` with its exception. The second producer is never called. |
| `Parallel.SingleProducerIsWrapped` | jquery.async.js:68-69 | A single producer resolving with `['one','two']` gives `[['one','two']]`, not the bare value. |
| `Parallel.DeferredAsProducerThrows` | jquery.async.js:62-64 | A Deferred passed where a producer function is expected makes the call throw, after only the producers before it have run. |
| `Series.InitialValue` | jquery.async.js:92-95 | The first step receives the second argument in the array form (`undefined` when missing), and `''` in the variadic form. |
| `Series.ThenResult` | jquery.async.js:100-102 | A step's return value settles its link as `$.promisify` would. A step that throws, or is not a function, rejects its link with the thrown value. |
| `Series.Chain` | jquery.async.js:97-106 | The reduce of `then` links as written, with `defer` as the outer settlement. `defer` never returns to unsettled, and after the last link an unsettled `defer` settles as that link does. |
| `Series.Series` | jquery.async.js:91-107 | The returned promise settles exactly as the reference fold `Thread`, whatever the jQuery version does with links after a failure. This holds for any steps, including ones that throw or are not functions. With no steps it resolves with the initial value. |
| `Series.SettledOuterIsFinal` | jquery.async.js:97-106 | Once the outer Deferred has settled, no later resolve or reject in the chain changes it. |
| `Series.PendingLinkIsInert` | jquery.async.js:99-103 | A link that never settles leaves the outer Deferred as it is. |
| `Series.ChainFollowsThread` | jquery.async.js:99-104 | From a resolved link, the reduce of `then` links ends in the reference fold over the remaining steps, for every continuation after a rejection. |
| `Series.ThreadAppend` | jquery.async.js:99-103 | Threading a concatenation of steps equals threading the first part, then the rest from its resolve arguments. |
| `Series.FirstFailureRejects` | jquery.async.js:100-103 | Say the steps before step k resolve and step k's link rejects with e, because its result rejects or because it throws. Then the promise rejects with e. |
| `Series.LastStepDecides` | jquery.async.js:103 | When every step resolves, the promise resolves with the last step's resolve arguments. |
| `Series.PlainThreadComposes` | jquery.async.js:99-102 | Steps returning plain values thread each value into the next step: the fold equals their composition. |
| `Series.PlainSeriesComposes` | test/test.js:27-39 | With synchronous pure steps, `$.series` resolves with `f_n(... f_1(initialValue))`. |
| `Series.VariadicStartsFromEmptyString` | jquery.async.js:92-95 | In the variadic form every argument is a step and the fold starts from `''`. `$.series()` resolves with `''`. |
| `AsyncEach.AsyncEach` | jquery.async.js:146-157 | The iteratee is called once per element, in order, with `(item, index)`, before one await. The call throws iff some call throws, which includes a non-function iteratee on a non-empty collection. Then that call's exception propagates, no later element is visited and nothing is awaited. The promise is never rejected. |
| `AsyncEach.MapCalls` | jquery.async.js:148-150 | `coll.map` calls the iteratee on element i with `(item, i)`, in order. Every call returns iff nothing is thrown. Otherwise the first throwing element is the one after the returned ones, and its exception is the one recorded. |
| `AsyncEach.Collected` | jquery.async.js:150-154 | Resolves iff every result resolves. With a length other than one, entry i is element i's joined value, replaced by its first element when it is an array. Never rejects. |
| `AsyncEach.AsyncEachCollectsInOrder` | jquery.async.js:148-151 | When every call returns, the result is `Collected` over the iteratee's results in element order, whatever the completion order. |
| `AsyncEach.IterateeThrowStopsAsyncEach` | jquery.async.js:148-150 | An iteratee that throws on the second element ends `$.asyncEach` with that exception. The third element is never visited. |
| `AsyncEach.EmptyCollectionResolvesEmpty` | jquery.async.js:146-156 | An empty collection calls nothing, not even a non-function iteratee, and resolves with `[]`. |
| `AsyncEach.SingleAjaxElementSpreads` | jquery.async.js:148-153 | As written: a single element whose ajax-like deferred resolves with `(data, 'success', xhr)` yields three entries. |
| `AsyncEach.CollectedPerElement` | jquery.async.js:150-154 | Corrected shaping: resolves iff all resolve, with exactly one unwrapped entry per element. |
| `AsyncEach.AsyncEachIntended` | jquery.async.js:146-157 | Corrected `$.asyncEach`: a resolved result holds exactly one entry per element. |
| `AsyncEach.IntendedAgreesBeyondOneElement` | jquery.async.js:148-153 | The correction changes nothing for collections whose length is not one. |
| `AsyncEach.IntendedSingleElement` | jquery.async.js:148-153 | For one element, the code as written agrees with the correction iff that element's promise resolved with exactly one argument. |
| `Polling.Create` | jquery.async.js:182-184 | A new handle has counted nothing, has `timer` unset and nothing armed, and is idle. |
| `Polling.Times` | jquery.async.js:203-205 | `times()` reports the counter. `TimesCountsCalls` relates it to the calls of `func`. |
| `Polling.StartPolling` | jquery.async.js:186-196 | `start` arms one fresh, truthy timer id, stores it in `timer`, and leaves the counter unchanged. |
| `Polling.Awaited` | jquery.async.js:190 | The timer callback awaits nothing iff `func` throws, or returns a value that passes `isDeferred` but has no callable `then`, on which `.then` throws. Otherwise it awaits the result's settlement. |
| `Polling.FireTimer` | jquery.async.js:187-190 | An armed timer firing raises `times` by exactly 1 and calls `func` once with the bound arguments. It starts awaiting the result only if the call returns, the result has a `then`, and the result fulfils. A call that throws, or a result without `then`, awaits nothing. It never re-arms by itself. A cleared timer changes nothing. |
| `Polling.Resume` | jquery.async.js:190-194 | A new timer is armed iff the awaited result of that firing fulfils while `timer` is set. The new timer gets a fresh id, is added to the armed timers and is held in `timer`. The counter is unchanged. |
| `Polling.Reject` | jquery.async.js:190-194 | A rejected action result arms nothing and changes neither `timer` nor the counter. |
| `Polling.StopPolling` | jquery.async.js:198-201 | `stop` cancels the timer held in `timer`, nulls `timer`, and keeps the counter. |
| `Polling.TimesCountsCalls` | jquery.async.js:203-205 | Over any run, `times` never decreases. Its increase equals the number of calls of `func`, each with the bound arguments. |
| `Polling.StepKeepsSingleChain` | jquery.async.js:186-201 | Every event keeps the single-chain invariant, except `start` on a busy handle. |
| `Polling.AtMostOneInFlight` | jquery.async.js:186-196 | If `start` is only called on idle handles (nothing armed, no fulfilling action awaited), there is never more than one armed timer or awaited fulfilling action. |
| `Polling.QuietStaysQuiet` | jquery.async.js:191-193 | A handle with nothing armed, where any awaited result will find `timer` null, never fires again until `start`. |
| `Polling.StopEndsPolling` | jquery.async.js:198-201 | On a single-chain handle (see `AtMostOneInFlight`), after `stop` the counter stays fixed until the next `start`, even if an action was in flight. |
| `Polling.RejectionEndsPolling` | jquery.async.js:190-194 | On a single-chain handle (see `AtMostOneInFlight`), a firing is the last one until the next `start` if its action throws, or returns a result that has no `then` or does not fulfil. |
| `Polling.PollingTestScenario` | test/test.js:118-140 | Start, two firings of a synchronous action and stop leave `times()` at 2. `func` has been called twice with `2`, and no later event without `start` changes the count. |
| `Polling.StopStartOpensSecondChain` | jquery.async.js:186-201 | As written: start, a firing whose action is in flight, stop, start, then the old action fulfils. This leaves two timers armed. After one more stop the surviving timer still fires and calls `func`. |
| `Polling.ResumeIntended` | jquery.async.js:190-194 | Corrected continuation: a new timer is armed iff the awaited result fulfils while `timer` still holds the id of the firing that produced it. |
| `Polling.ResumeAgrees` | jquery.async.js:190-194 | When the awaited action belongs to the timer `timer` holds, the corrected continuation does exactly what the code as written does. |
| `Polling.StepAgrees` | jquery.async.js:186-201 | On a single chain whose awaited action belongs to the current timer, every event except `start` on a busy handle is the same under both continuations, and it keeps that property. |
| `Polling.IntendedAgreesWhenStartsIdle` | jquery.async.js:186-201 | The correction changes nothing for clients that call `start` only on idle handles: every such run ends in the same state as the code as written, from a new handle or any handle in that state. |
| `Polling.IntendedStepKeepsChain` | jquery.async.js:186-201 | With the corrected continuation, every event keeps the single-chain invariant. This includes `start` while polling is stopped. |
| `Polling.IntendedKeepsSingleChain` | jquery.async.js:186-201 | With the corrected continuation and `start` called only before the first start or after a stop, at most one timer is ever armed. |
| `Polling.IntendedStopEndsPolling` | jquery.async.js:198-201 | On a handle in the intended single chain (see `IntendedKeepsSingleChain`), with the corrected continuation, after `stop` nothing fires until the next `start`, whatever was in flight. |
| `Polling.IntendedStopStartKeepsOneChain` | jquery.async.js:186-201 | The run that opens a second chain as written keeps one armed timer with the correction, and its final stop ends polling. |
| `Polling.ThenlessResultStopsPolling` | jquery.async.js:186-194 | As written: an action returning an already resolved value with `promise` but no `then` is called once. Nothing is re-armed, and `times()` stays at 1 in every later run without `start`. |
| `Polling.AwaitedIntended` | jquery.async.js:190 | Corrected awaiting: nothing is awaited iff `func` throws. Any returned value is awaited through its own promise. |
| `Polling.FireTimerIntended` | jquery.async.js:187-194 | Corrected timer callback: it counts and calls as written, and awaits every returned result, re-arming later iff that result fulfils. |
| `Polling.FireTimerIntendedAgrees` | jquery.async.js:187-194 | The correction changes a firing iff the action returns a settling result that passes `isDeferred` but has no callable `then`, and that firing was not already awaited the same way. |
| `Polling.ThenlessResultKeepsPollingIntended` | jquery.async.js:186-194 | With the correction, the run that stops as written re-arms timer 2 after the first call. |

## Findings

| source | as written | input that shows it | evidently intended | confidence | as-written member | corrected member |
|---|---|---|---|---|---|---|
| jquery.async.js:148-153 | A one-element collection gets no per-element shaping. `$.when` with one input passes that input's resolve arguments through, so the result has one entry per resolve argument. | `$.asyncEach([url], fetchUrl)`, where the request resolves with `(data, 'success', jqXHR)`, gives `[data, 'success', jqXHR]` | `[data]`: one entry per element, as for longer collections | medium, not executed; relies on the `$.when` single-input behaviour stated above | `AsyncEach.SingleAjaxElementSpreads` | `AsyncEach.AsyncEachIntended` |
| jquery.async.js:190-194 | The continuation re-arms whenever `timer` is truthy, whichever `start` set it. | `p.start()`; the action of the first firing is in flight; `p.stop(); p.start()`; that action fulfils. Two timers are now armed, so two chains call `func` until the next `p.stop()`. That `stop` cancels only the newest timer, and the other one still fires once, calling `func` once more after the `stop`. | `stop` ends polling at once, and a `start` after `stop` opens exactly one chain | medium, not executed | `Polling.StopStartOpensSecondChain` | `Polling.IntendedKeepsSingleChain` |
| jquery.async.js:190 | `isDeferred` accepts any truthy value with a callable `promise`, and `$.promisify` returns it unchanged. The timer callback then calls `.then` on it. | `$.polling(function () { return $('#status').load(url); }, 1000)`: a jQuery collection has `promise` but no `then`, so the first firing counts, calls `func`, throws a TypeError and never re-arms | the action's result is awaited through its promise, and polling continues | low, not executed | `Polling.ThenlessResultStopsPolling` | `Polling.FireTimerIntended` |

## Left out

- The UMD/module-loader wrapper (jquery.async.js:1-26): environment plumbing.
- jQuery's Deferred, `then` and `$.when`: reduced to abstract settlements, plus the assumed `When` shaping above.
- `$.when`'s rejection reason: no combinator observes it.
- Timing of `then` callbacks: synchronous in old jQuery, asynchronous in jQuery 3. `Fire` and `SettleOk` are separate events, so the model allows both orders.
- Series.ThenResult: a step that throws, or is not a function, rejects its link with the thrown value, as jQuery 3's `then` does. In jQuery 1.x and 2.x the exception escapes the callback instead, and that behaviour is not modelled.
- Series.ThenResult: a step result is adopted only when it has a callable `promise` member, the test jQuery 1.x and 2.x apply. jQuery 3's `then` adopts by a callable `then` instead. It adopts a foreign thenable such as a native Promise, which the model treats as a plain value, so the next step receives the thenable itself. Conversely, jQuery 3 treats a value with `promise` but no `then`, such as a jQuery collection, as plain, where the model adopts its settlement.
- Deferreds.When: the same limit holds for `$.parallel` and `$.asyncEach`. jQuery 3's `$.when` falls back to a callable `then` when there is no `promise` member. The model counts a foreign thenable as resolved with itself, so its entry is the thenable rather than its resolve value.
- Series: which steps after a failing step still run is not claimed. It depends on how the jQuery version treats the value `defer.reject` returns. The parameter `recovery` leaves this open, and only the outer outcome is stated.
- AsyncEach.AsyncEach: requires the collection to be an array. A value without `map` throws, and array-likes with their own `map` are not modelled.
- Polling.Create: requires `func` to be a function, because the call log names the polled function by id. With a non-function, `func.apply` throws a TypeError inside the timer callback after `times` has been incremented. A `Fire` whose outcome is that throw has the same effect on the counter and the timers.
- Polling.AtMostOneInFlight: guarantees a single chain only when `start` is called on idle handles: nothing armed and no fulfilling action awaited. Two `start` calls without `stop` open a second chain. So does `stop` followed by `start` while an action is in flight (see Findings). In both cases `stop` clears only the latest timer.
- Real timers, the `wait` delay and the event loop: timers become armed ids and `Fire` events.
- `$.ajax` and HTTP: "ajax-like" is only an own `readyState` property on a deferred object.
- Numbers are integers: no floating point and no NaN.
- JsValues.Host: a caller's function is a pure function of its arguments. Two calls of the same function with the same arguments return the same completion. Stateful functions whose calls differ are not modelled, such as one producer passed twice to `$.parallel`, or a step repeated in `$.series`.
- JsValues.Index0: strings are sequences of Unicode characters. On a string whose first character lies outside the Basic Multilingual Plane it returns that whole character, where JavaScript returns one UTF-16 code unit.
- Only objects carry properties: prototype properties of primitives, arrays and functions are not modelled.

=== FILE: async_each.dfy ===
/**
 * `$.asyncEach(coll, iteratee)`: call the iteratee on every element at once,
 * join the results with `$.when`, and resolve with the joined values, every
 * array-valued one replaced by its first element.
 */
module AsyncEach {
  import opened JsValues
  import opened Deferreds

  /** A joined value as the result reports it: an array is replaced by its
      first element (`undefined` when empty), anything else is kept. */
  function Unwrap(item: Value): (r: Value)
    ensures item.Arr? && |item.items| > 0 ==> r == item.items[0]
    ensures item.Arr? && |item.items| == 0 ==> r == Undefined
    ensures !item.Arr? ==> r == item
  {
    if item.Arr? then ArgAt(item.items, 0) else item
  }

  function UnwrapAll(items: seq<Value>): (r: seq<Value>)
    ensures |r| == |items|
    ensures forall i :: 0 <= i < |items| ==> r[i] == Unwrap(items[i])
  {
    seq(|items|, i requires 0 <= i < |items| => Unwrap(items[i]))
  }

  /** The argument lists `coll.map` hands its callback: the element and its index. */
  function ItemArgs(items: seq<Value>): (r: seq<seq<Value>>)
    ensures |r| == |items|
    ensures forall i :: 0 <= i < |items| ==> r[i] == [items[i], Num(i)]
  {
    seq(|items|, i requires 0 <= i < |items| => [items[i], Num(i)])
  }

  /** The calls `coll.map` makes: the iteratee on each element and its index,
      in order, up to the first call that throws. */
  function MapCalls(iteratee: Value, items: seq<Value>, host: Host): (c: Calls)
    ensures |c.returned| <= |c.effects| <= |items| && |c.effects| <= |c.returned| + 1
    ensures forall i :: 0 <= i < |c.effects| ==>
              iteratee.Fn? && c.effects[i] == Invoke(iteratee.id, [items[i], Num(i)])
    ensures forall i :: 0 <= i < |c.returned| ==>
              Call(iteratee, [items[i], Num(i)], host) == Returned(c.returned[i])
    ensures c.thrown.None? <==>
              forall i :: 0 <= i < |items| ==> Call(iteratee, [items[i], Num(i)], host).Returned?
    ensures c.thrown.None? ==> |c.returned| == |c.effects| == |items|
    ensures c.thrown.Some? ==>
              var k := |c.returned|;
              && k < |items|
              && Call(iteratee, [items[k], Num(k)], host) == Threw(c.thrown.value)
              && |c.effects| == if iteratee.Fn? then k + 1 else k
  {
    var callees := seq(|items|, _ => iteratee);
    var argLists := ItemArgs(items);
    CallEachStopsAtFirstThrow(callees, argLists, host);
    assert forall i :: 0 <= i < |items| ==> callees[i] == iteratee && argLists[i] == [items[i], Num(i)];
    CallEach(callees, argLists, host)
  }

  /** How the promise `$.asyncEach` returns settles, given what the iteratee
      returned for each element, as the source is written. */
  function Collected(returned: seq<Value>): (s: Settlement)
    // there is no fail handler: a rejection leaves the result unsettled
    ensures !s.Rejected?
    ensures s.Resolved? <==> AllResolve(returned)
    ensures s.Resolved? && |returned| != 1 ==>
              && |s.args| == 1 && s.args[0].Arr?
              && |s.args[0].items| == |returned|
              && forall i :: 0 <= i < |returned| ==>
                   s.args[0].items[i] == Unwrap(Shape(ResolvedArgs(returned[i])))
    // a single element: one entry per argument its promise resolved with
    ensures s.Resolved? && |returned| == 1 ==>
              s.args == [Arr(UnwrapAll(ResolvedArgs(returned[0])))]
  {
    match When(returned)
    case None => Pending
    case Some(done) => Resolved([Arr(UnwrapAll(done))])
  }

  /** `$.asyncEach` as written. The iteratee is called once per element, in
      order, with the element and its index. A call that throws, because the
      iteratee is not a function or because it throws itself, ends the calls,
      and what it threw propagates out of `$.asyncEach`. */
  function AsyncEach(coll: Value, iteratee: Value, host: Host): (r: Observed)
    requires coll.Arr?
    ensures var items := coll.items;
      && |r.effects| <= |items| + 1
      && (forall i :: 0 <= i < |items| && i < |r.effects| ==>
            iteratee.Fn? && r.effects[i] == Invoke(iteratee.id, [items[i], Num(i)]))
      && (r.completion.Threw? <==>
            exists i :: 0 <= i < |items| && Call(iteratee, [items[i], Num(i)], host).Threw?)
      && (r.completion.Returned? ==>
            |r.effects| == |items| + 1 && r.effects[|items|] == AwaitAll(|items|))
      && (r.completion.Threw? ==>
            exists k :: 0 <= k < |items|
              && (forall i :: 0 <= i < k ==> Call(iteratee, [items[i], Num(i)], host).Returned?)
              && Call(iteratee, [items[k], Num(k)], host) == r.completion
              && |r.effects| == if iteratee.Fn? then k + 1 else k)
    ensures r.completion.Returned? ==>
              var p := r.completion.value;
              IsDeferred(p) && p.Obj? && !p.fate.Rejected?
  {
    var items := coll.items;
    var calls := MapCalls(iteratee, items, host);
    match calls.thrown
    case Some(e) =>
      var k := |calls.returned|;
      assert forall i :: 0 <= i < k ==> Call(iteratee, [items[i], Num(i)], host).Returned?;
      Observed(calls.effects, Threw(e))
    case None =>
      Observed(calls.effects + [AwaitAll(|items|)], Returned(PromiseOf(Collected(calls.returned))))
  }

  /** When every call returns, the result is `Collected` over the iteratee's
      results in element order, whichever of them settles first. */
  lemma {:induction false} AsyncEachCollectsInOrder(coll: Value, f: nat, host: Host)
    requires coll.Arr?
    requires forall i :: 0 <= i < |coll.items| ==> host(f, [coll.items[i], Num(i)]).Returned?
    ensures var items := coll.items;
            var r := AsyncEach(coll, Fn(f), host);
            && r.completion.Returned?
            && r.completion.value.fate ==
                 Collected(seq(|items|, i requires 0 <= i < |items| && host(f, [items[i], Num(i)]).Returned? =>
                                          host(f, [items[i], Num(i)]).value))
  {
    var items := coll.items;
    var calls := MapCalls(Fn(f), items, host);
    assert calls.returned == seq(|items|, i requires 0 <= i < |items| && host(f, [items[i], Num(i)]).Returned? =>
                                            host(f, [items[i], Num(i)]).value);
  }

  /** An iteratee that throws on the second element ends `$.asyncEach` with
      that exception: the third element is never visited and nothing is awaited. */
  lemma IterateeThrowStopsAsyncEach(a: Value, b: Value, c: Value, f: nat, v: Value, e: Value, host: Host)
    requires host(f, [a, Num(0)]) == Returned(v)
    requires host(f, [b, Num(1)]) == Threw(e)
    ensures AsyncEach(Arr([a, b, c]), Fn(f), host)
            == Observed([Invoke(f, [a, Num(0)]), Invoke(f, [b, Num(1)])], Threw(e))
  {
  }

  /** An empty collection never calls the iteratee, which need not even be a
      function, and resolves with an empty array. */
  lemma EmptyCollectionResolvesEmpty(iteratee: Value, host: Host)
    ensures var r := AsyncEach(Arr([]), iteratee, host);
            && r.effects == [AwaitAll(0)]
            && r.completion.Returned?
            && r.completion.value.fate == Resolved([Arr([])])
  {
  }

  // ---------------------------------------------------------------------------
  // A one-element collection skips the per-element shaping: `$.when` with a
  // single input passes that input's resolve arguments through, so a request
  // resolving with (data, statusText, jqXHR) yields three entries, not one.
  // ---------------------------------------------------------------------------

  /** As written: one URL fetched through an ajax-like deferred resolving with
      `(data, statusText, xhr)` gives `[data, statusText, xhr]`. */
  lemma SingleAjaxElementSpreads(url: Value, f: nat, data: Value, xhr: Value, host: Host)
    requires !data.Arr? && !xhr.Arr?
    requires host(f, [url, Num(0)]).Returned?
    requires IsAjax(host(f, [url, Num(0)]).value)
    requires host(f, [url, Num(0)]).value.fate == Resolved([data, Str("success"), xhr])
    ensures var r := AsyncEach(Arr([url]), Fn(f), host);
            && r.completion.Returned?
            && r.completion.value.fate == Resolved([Arr([data, Str("success"), xhr])])
            && |r.completion.value.fate.args[0].items| != 1
  {
    AsyncEachCollectsInOrder(Arr([url]), f, host);
    var returned := [host(f, [url, Num(0)]).value];
    assert ResolvedArgs(returned[0]) == [data, Str("success"), xhr];
    assert UnwrapAll([data, Str("success"), xhr]) == [data, Str("success"), xhr];
  }

  /** Intended shaping: every element contributes one entry, whatever the
      collection's length. */
  function CollectedPerElement(returned: seq<Value>): (s: Settlement)
    ensures !s.Rejected?
    ensures s.Resolved? <==> AllResolve(returned)
    ensures s.Resolved? ==>
              && |s.args| == 1 && s.args[0].Arr?
              && |s.args[0].items| == |returned|
              && forall i :: 0 <= i < |returned| ==>
                   s.args[0].items[i] == Unwrap(Shape(ResolvedArgs(returned[i])))
  {
    if !AllResolve(returned) then Pending
    else Resolved([Arr(seq(|returned|, i requires 0 <= i < |returned| => Unwrap(Shape(ResolvedArgs(returned[i])))))])
  }

  /** `$.asyncEach` as evidently intended: the result holds exactly one entry
      per element, in element order. */
  function AsyncEachIntended(coll: Value, iteratee: Value, host: Host): (r: Observed)
    requires coll.Arr?
    ensures r.completion.Threw? <==>
              exists i :: 0 <= i < |coll.items| && Call(iteratee, [coll.items[i], Num(i)], host).Threw?
    ensures r.completion.Returned? ==>
              var p := r.completion.value;
              && IsDeferred(p) && p.Obj? && !p.fate.Rejected?
              && (p.fate.Resolved? ==>
                    |p.fate.args| == 1 && p.fate.args[0].Arr? &&
                    |p.fate.args[0].items| == |coll.items|)
  {
    var items := coll.items;
    var calls := MapCalls(iteratee, items, host);
    match calls.thrown
    case Some(e) =>
      var k := |calls.returned|;
      assert forall i :: 0 <= i < k ==> Call(iteratee, [items[i], Num(i)], host).Returned?;
      Observed(calls.effects, Threw(e))
    case None =>
      Observed(calls.effects + [AwaitAll(|items|)], Returned(PromiseOf(CollectedPerElement(calls.returned))))
  }

  /** The correction changes nothing except for one-element collections. */
  lemma {:induction false} IntendedAgreesBeyondOneElement(returned: seq<Value>)
    requires |returned| != 1
    ensures CollectedPerElement(returned) == Collected(returned)
  {
    if AllResolve(returned) {
      var a := CollectedPerElement(returned).args[0].items;
      var b := Collected(returned).args[0].items;
      assert |a| == |b|;
      assert forall i :: 0 <= i < |a| ==> a[i] == b[i];
      assert a == b;
      assert CollectedPerElement(returned).args == Collected(returned).args;
    }
  }

  /** For one element the intended result is that element's unwrapped value,
      which the code as written delivers only when the promise resolved with
      exactly one argument. */
  lemma {:induction false} IntendedSingleElement(v: Value)
    requires Outcome(v).Resolved?
    ensures CollectedPerElement([v]) == Resolved([Arr([Unwrap(Shape(ResolvedArgs(v)))])])
    ensures |ResolvedArgs(v)| == 1 <==> CollectedPerElement([v]) == Collected([v])
  {
    var a := ResolvedArgs(v);
    assert AllResolve([v]);
    var u := Unwrap(Shape(a));
    assert seq(1, i requires 0 <= i < 1 => Unwrap(Shape(ResolvedArgs([v][i])))) == [u];
    if |a| == 1 {
      assert UnwrapAll(a) == [u];
    } else {
      assert |Collected([v]).args[0].items| == |a|;
    }
  }
}

=== FILE: deferreds.dfy ===
/**
 * The deferred layer the combinators stand on: the structural "is deferred"
 * and "is ajax" tests, `$.promisify`, and `$.when`'s argument shaping.
 *
 * jQuery's Deferred and `$.when` are not part of this model. `When` is an
 * explicit assumption about how `$.when` shapes the arguments of its done
 * callback; it is the only place where library behaviour is assumed.
 */
module Deferreds {
  import opened JsValues

  /** A deferred is recognised by shape: a truthy value whose `promise`
      member is a function. */
  predicate IsDeferred(v: Value)
    // only objects carry a `promise` member, and falsy values never pass
    ensures IsDeferred(v) ==> v.Obj? && Truthy(v)
    ensures v.Obj? ==> (IsDeferred(v) <==> Get(v, "promise").Fn?)
  {
    Truthy(v) && Get(v, "promise").Fn?
  }

  /** A value `isDeferred` accepts although its `then` is not a function, as
      a jQuery collection (which has `promise` but no `then`): calling `.then`
      on it throws a TypeError. */
  predicate ThenlessDeferred(v: Value) {
    IsDeferred(v) && !Get(v, "then").Fn?
  }

  /** An ajax-like (jqXHR-like) deferred: one that carries `readyState` as
      an own property, not an inherited one. */
  predicate IsAjax(v: Value)
    ensures IsAjax(v) ==> IsDeferred(v)
    // an inherited `readyState` does not make a deferred ajax-like
    ensures v.Obj? && "readyState" !in v.own ==> !IsAjax(v)
    ensures IsDeferred(v) && "readyState" in v.own ==> IsAjax(v)
  {
    IsDeferred(v) && v.Obj? && "readyState" in v.own
  }

  /** Identifiers of the native methods a jQuery promise object carries. */
  const PromiseMethod: nat := 0
  const ThenMethod: nat := 1

  /** The promise object of a fresh `$.Deferred()` that settles as `s`. */
  function PromiseOf(s: Settlement): (r: Value)
    ensures IsDeferred(r) && !IsAjax(r)
    ensures r.Obj? && r.fate == s
  {
    Obj(map["promise" := Fn(PromiseMethod), "then" := Fn(ThenMethod)], map[], s)
  }

  /** `$.promisify(value)`: a deferred is returned unchanged; anything else,
      falsy values included, becomes a deferred resolved with exactly that value. */
  function Promisify(v: Value): (r: Value)
    ensures IsDeferred(r) && r.Obj?
    ensures IsDeferred(v) ==> r == v
    ensures !IsDeferred(v) ==> !IsAjax(r) && r.fate == Resolved([v])
  {
    if IsDeferred(v) then v else PromiseOf(Resolved([v]))
  }

  /** Lifting twice is lifting once: no double wrapping. */
  lemma PromisifyIdempotent(v: Value)
    ensures Promisify(Promisify(v)) == Promisify(v)
    ensures Promisify(v) != v ==> !IsDeferred(v)
  {
  }

  /** Falsy values are never deferred, so each is lifted into a deferred
      resolved with itself (`$.promisify(null)` resolves with `null`). */
  lemma PromisifyLiftsFalsy(v: Value)
    requires !Truthy(v)
    ensures Promisify(v) != v
    ensures Promisify(v).fate == Resolved([v])
  {
  }

  /** How a value settles once adopted through its `promise` member: a
      deferred settles as its own fate, anything else is lifted by `Promisify`
      and resolves with itself. */
  function Outcome(v: Value): (s: Settlement)
    ensures IsDeferred(v) ==> v.Obj? && s == v.fate
    ensures !IsDeferred(v) ==> s == Resolved([v])
  {
    Promisify(v).fate
  }

  /** The positional arguments a resolved value delivers; empty otherwise. */
  function ResolvedArgs(v: Value): seq<Value> {
    match Outcome(v)
    case Resolved(a) => a
    case _ => []
  }

  /** `deferred.resolve(...)` / `deferred.reject(...)`: a deferred settles at
      most once, so a later call has no effect. */
  function Settle(d: Settlement, s: Settlement): (r: Settlement)
    ensures !d.Pending? ==> r == d
    ensures d.Pending? ==> r == s
  {
    if d.Pending? then s else d
  }

  /** What one input contributes to the done arguments of a `$.when` with
      several inputs: its single value, or an array of its arguments when it
      resolved with more than one (`undefined` when it resolved with none). */
  function Shape(args: seq<Value>): (r: Value)
    ensures |args| > 1 ==> r == Arr(args)
    ensures |args| == 1 ==> r == args[0]
    ensures |args| == 0 ==> r == Undefined
  {
    if |args| > 1 then Arr(args) else ArgAt(args, 0)
  }

  predicate AllResolve(inputs: seq<Value>) {
    forall i :: 0 <= i < |inputs| ==> Outcome(inputs[i]).Resolved?
  }

  /** ASSUMED behaviour of `$.when.apply(null, inputs)`: its done callback runs
      iff every input resolves (a non-deferred input counts as resolved with
      itself); a single input passes its own resolve arguments through, while
      zero or several inputs yield one shaped entry per input. */
  function When(inputs: seq<Value>): (r: Option<seq<Value>>)
    ensures r.Some? <==> AllResolve(inputs)
    ensures r.Some? && |inputs| == 1 ==> r.value == ResolvedArgs(inputs[0])
    ensures r.Some? && |inputs| != 1 ==>
              && |r.value| == |inputs|
              && forall i :: 0 <= i < |inputs| ==> r.value[i] == Shape(ResolvedArgs(inputs[i]))
  {
    if !AllResolve(inputs) then None
    else if |inputs| == 1 then Some(ResolvedArgs(inputs[0]))
    else Some(seq(|inputs|, i requires 0 <= i < |inputs| => Shape(ResolvedArgs(inputs[i]))))
  }
}

=== FILE: js_values.dfy ===
/**
 * JavaScript values as the jquery.async combinators observe them, the calling
 * conventions they share, and the log of effects a combinator call produces.
 *
 * Numbers are modelled as integers (no floating point, no NaN). Only objects
 * carry properties; an object's `fate` is the settlement that its deferred
 * machinery eventually reports, which is meaningful only for objects that pass
 * the structural "is deferred" test (see module Deferreds).
 */
module JsValues {

  datatype Option<+T> = None | Some(value: T)

  datatype Value =
    | Undefined
    | Null
    | Bool(b: bool)
    | Num(n: int)
    | Str(s: string)
    | Arr(items: seq<Value>)
    | Fn(id: nat)
    | Obj(own: map<string, Value>, inherited: map<string, Value>, fate: Settlement)

  /** The abstract outcome of a deferred: never settled, resolved with
      positional arguments, or rejected with positional arguments. */
  datatype Settlement =
    | Pending
    | Resolved(args: seq<Value>)
    | Rejected(reasons: seq<Value>)

  /** JavaScript truthiness: `undefined`, `null`, `false`, `0` and `''` are falsy. */
  predicate Truthy(v: Value) {
    match v
    case Undefined => false
    case Null => false
    case Bool(b) => b
    case Num(n) => n != 0
    case Str(s) => s != ""
    case _ => true
  }

  /** Property read `v[key]`: own properties shadow inherited ones. */
  function Get(v: Value, key: string): Value {
    match v
    case Obj(own, inherited, _) =>
      if key in own then own[key] else if key in inherited then inherited[key] else Undefined
    case _ => Undefined
  }

  /** The read `v[0]`; None when it throws a TypeError (on `null` and `undefined`). */
  function Index0(v: Value): (r: Option<Value>)
    ensures r.None? <==> v == Null || v == Undefined
    // arrays: the first element, `undefined` when empty
    ensures v.Arr? ==> r == Some(ArgAt(v.items, 0))
    // strings: the one-character string at position 0, `undefined` when empty
    ensures v.Str? ==> r == Some(if |v.s| > 0 then Str([v.s[0]]) else Undefined)
    // objects: the property named "0", own or inherited
    ensures v.Obj? ==> r == Some(Get(v, "0"))
    // booleans, numbers and functions have no property "0" in this model
    ensures v.Bool? || v.Num? || v.Fn? ==> r == Some(Undefined)
  {
    match v
    case Undefined => None
    case Null => None
    case Arr(items) => Some(if |items| > 0 then items[0] else Undefined)
    case Str(s) => Some(if |s| > 0 then Str([s[0]]) else Undefined)
    case Obj(_, _, _) => Some(Get(v, "0"))
    case _ => Some(Undefined)
  }

  /** `arguments[i]`: a missing positional argument reads as `undefined`. */
  function ArgAt(args: seq<Value>, i: nat): Value {
    if i < |args| then args[i] else Undefined
  }

  /** Whether a call uses the array form, `f([a, b, c], ...)`, rather than
      the variadic form `f(a, b, c)`. */
  predicate IsArrayCall(args: seq<Value>) {
    |args| > 0 && args[0].Arr?
  }

  /** The list a combinator works on: the first argument when it is an array,
      otherwise the whole argument list. */
  function ListArgument(args: seq<Value>): (list: seq<Value>)
    ensures IsArrayCall(args) ==> list == args[0].items
    ensures !IsArrayCall(args) ==> list == args
  {
    if IsArrayCall(args) then args[0].items else args
  }

  /** What a call did: returned a value, or threw one. */
  datatype Completion = Returned(value: Value) | Threw(error: Value)

  /** The TypeError thrown by calling a value that is not a function,
      identified by its name. */
  const TypeError: Value := Str("TypeError")

  /** The caller's functions: what function `id` does when called with the
      given positional arguments, returning a value or throwing one. */
  type Host = (nat, seq<Value>) -> Completion

  /** The call `callee(...args)`: a value that is not a function throws a TypeError. */
  function Call(callee: Value, args: seq<Value>, host: Host): Completion {
    if callee.Fn? then host(callee.id, args) else Threw(TypeError)
  }

  /** What a combinator call does that an observer can see, in order. */
  datatype Effect =
    | Invoke(callee: nat, args: seq<Value>)   // a caller-supplied function is called
    | AwaitAll(count: nat)                    // `$.when` is applied to `count` results

  datatype Observed = Observed(effects: seq<Effect>, completion: Completion)

  /** The calls made by one `map` over caller-supplied functions: the calls
      started, the values returned, and what was thrown if the `map` stopped. */
  datatype Calls = Calls(effects: seq<Effect>, returned: seq<Value>, thrown: Option<Value>)

  /** Calls `callees[i]` with `argLists[i]` for i = 0, 1, ... in order, as
      `Array.prototype.map` does. The first call that throws, because its
      callee is not a function or because the function itself throws, ends
      the `map`, and what it threw propagates (see `CallEachStopsAtFirstThrow`). */
  function CallEach(callees: seq<Value>, argLists: seq<seq<Value>>, host: Host): (c: Calls)
    requires |callees| == |argLists|
    ensures |c.returned| <= |c.effects| <= |c.returned| + 1
    ensures c.thrown.None? ==> |c.returned| == |c.effects| == |callees|
    ensures c.thrown.Some? ==> |c.returned| < |callees|
    // every call made, in order, and the values of those that returned
    ensures forall i :: 0 <= i < |c.effects| ==>
              callees[i].Fn? && c.effects[i] == Invoke(callees[i].id, argLists[i])
    ensures forall i :: 0 <= i < |c.returned| ==>
              Call(callees[i], argLists[i], host) == Returned(c.returned[i])
    decreases |callees|
  {
    if |callees| == 0 then Calls([], [], None)
    else if !callees[0].Fn? then Calls([], [], Some(TypeError))
    else
      var call := Invoke(callees[0].id, argLists[0]);
      match host(callees[0].id, argLists[0])
      case Threw(e) => Calls([call], [], Some(e))
      case Returned(v) =>
        var rest := CallEach(callees[1..], argLists[1..], host);
        var c := Calls([call] + rest.effects, [v] + rest.returned, rest.thrown);
        assert forall i :: 0 < i < |c.effects| ==>
                 c.effects[i] == rest.effects[i - 1] && callees[1..][i - 1] == callees[i]
                 && argLists[1..][i - 1] == argLists[i];
        assert forall i :: 0 < i < |c.returned| ==> c.returned[i] == rest.returned[i - 1];
        c
  }

  /** The `map` throws iff some call throws. Then the first call that throws
      ends it: that call's exception propagates, a function that throws was
      still called, and no later callee is called. */
  lemma {:induction false} CallEachStopsAtFirstThrow(callees: seq<Value>, argLists: seq<seq<Value>>, host: Host)
    requires |callees| == |argLists|
    ensures var c := CallEach(callees, argLists, host);
            && (c.thrown.None? <==>
                  forall i :: 0 <= i < |callees| ==> Call(callees[i], argLists[i], host).Returned?)
            && (c.thrown.Some? ==>
                  var k := |c.returned|;
                  && Call(callees[k], argLists[k], host) == Threw(c.thrown.value)
                  && |c.effects| == if callees[k].Fn? then k + 1 else k)
    decreases |callees|
  {
    if |callees| > 0 && callees[0].Fn? && host(callees[0].id, argLists[0]).Returned? {
      CallEachStopsAtFirstThrow(callees[1..], argLists[1..], host);
      assert forall i :: 0 < i < |callees| ==>
               callees[1..][i - 1] == callees[i] && argLists[1..][i - 1] == argLists[i];
    }
  }
}

=== FILE: parallel.dfy ===
/**
 * `$.parallel(deferreds)` / `$.parallel(f1, f2, ...)`: call every producer at
 * once, join their results with `$.when`, and resolve with an array holding
 * one entry per producer.
 */
module Parallel {
  import opened JsValues
  import opened Deferreds

  /** One entry of a several-producer result: the joined item, reduced to
      `item[0]` when its deferred is ajax-like; None when that read throws. */
  function Entry(item: Value, deferred: Value): (r: Option<Value>)
    ensures !IsAjax(deferred) ==> r == Some(item)
    ensures IsAjax(deferred) ==> r == Index0(item)
  {
    if IsAjax(deferred) then Index0(item) else Some(item)
  }

  /** The entries of a several-producer result, in producer order; None when
      reading the first element of any ajax-like entry throws. */
  function Entries(items: seq<Value>, deferreds: seq<Value>): (r: Option<seq<Value>>)
    requires |items| == |deferreds|
    ensures r.Some? <==> forall i :: 0 <= i < |items| ==> Entry(items[i], deferreds[i]).Some?
    ensures r.Some? ==>
              && |r.value| == |items|
              && forall i :: 0 <= i < |items| ==> r.value[i] == Entry(items[i], deferreds[i]).value
    decreases |items|
  {
    if |items| == 0 then Some([])
    else
      match (Entry(items[0], deferreds[0]), Entries(items[1..], deferreds[1..]))
      case (Some(x), Some(rest)) => Some([x] + rest)
      case _ => None
  }

  /** How the promise `$.parallel` returns settles, given the values the
      producers returned: the done handler of `$.when` over them. */
  function Joined(returned: seq<Value>): (s: Settlement)
    // there is no fail handler: a rejection leaves the result unsettled
    ensures !s.Rejected?
    // exactly one producer: a one-element array of its first resolve argument
    ensures |returned| == 1 ==>
              && (s.Resolved? <==> Outcome(returned[0]).Resolved?)
              && (s.Resolved? ==> s.args == [Arr([ArgAt(ResolvedArgs(returned[0]), 0)])])
    // otherwise one entry per producer, in input order
    ensures |returned| != 1 ==>
              && (s.Resolved? <==>
                    forall i :: 0 <= i < |returned| ==>
                      Outcome(returned[i]).Resolved? &&
                      (IsAjax(returned[i]) ==> Index0(Shape(ResolvedArgs(returned[i]))).Some?))
              && (s.Resolved? ==>
                    && |s.args| == 1 && s.args[0].Arr?
                    && |s.args[0].items| == |returned|
                    && forall i :: 0 <= i < |returned| ==>
                         s.args[0].items[i] ==
                           if IsAjax(returned[i]) then Index0(Shape(ResolvedArgs(returned[i]))).value
                           else Shape(ResolvedArgs(returned[i])))
  {
    match When(returned)
    case None => Pending
    case Some(done) =>
      if |returned| == 1 then Resolved([Arr([ArgAt(done, 0)])])
      else
        match Entries(done, returned)
        case None => Pending
        case Some(items) => Resolved([Arr(items)])
  }

  /** No arguments for each of `n` calls. */
  function NoArgs(n: nat): (r: seq<seq<Value>>)
    ensures |r| == n && forall i :: 0 <= i < n ==> r[i] == []
  {
    seq(n, _ => [])
  }

  /** `$.parallel`: every producer is called once, with no arguments, in
      input order, before the results are joined. The first producer that is
      not a function, or that throws, ends the calls, and what it threw
      propagates out of `$.parallel`. */
  function Parallel(args: seq<Value>, host: Host): (r: Observed)
    ensures var ps := ListArgument(args);
      && |r.effects| <= |ps| + 1
      && (forall i :: 0 <= i < |ps| && i < |r.effects| ==>
            ps[i].Fn? && r.effects[i] == Invoke(ps[i].id, []))
      && (r.completion.Threw? <==> exists i :: 0 <= i < |ps| && Call(ps[i], [], host).Threw?)
      && (r.completion.Returned? ==>
            |r.effects| == |ps| + 1 && r.effects[|ps|] == AwaitAll(|ps|))
      && (r.completion.Threw? ==>
            exists k :: 0 <= k < |ps|
              && (forall i :: 0 <= i < k ==> Call(ps[i], [], host).Returned?)
              && Call(ps[k], [], host) == r.completion
              && |r.effects| == if ps[k].Fn? then k + 1 else k)
    ensures r.completion.Returned? ==>
              var p := r.completion.value;
              IsDeferred(p) && !IsAjax(p) && p.Obj? && !p.fate.Rejected?
  {
    var producers := ListArgument(args);
    var none := NoArgs(|producers|);
    var calls := CallEach(producers, none, host);
    CallEachStopsAtFirstThrow(producers, none, host);
    match calls.thrown
    case Some(e) =>
      var k := |calls.returned|;
      assert Call(producers[k], [], host) == Threw(e);
      assert forall i :: 0 <= i < k ==> Call(producers[i], [], host).Returned? by {
        assert forall i :: 0 <= i < k ==> Call(producers[i], none[i], host).Returned?;
      }
      assert |calls.effects| == if producers[k].Fn? then k + 1 else k;
      Observed(calls.effects, Threw(e))
    case None =>
      Observed(calls.effects + [AwaitAll(|producers|)], Returned(PromiseOf(Joined(calls.returned))))
  }

  /** The producers' results are what `Joined` shapes: entry i of a resolved
      several-producer `$.parallel` comes from producer i, whichever settles first. */
  lemma {:induction false} ParallelJoinsProducerResults(args: seq<Value>, host: Host)
    requires var ps := ListArgument(args);
             forall i :: 0 <= i < |ps| ==> Call(ps[i], [], host).Returned?
    ensures var ps := ListArgument(args);
            var r := Parallel(args, host);
            && r.completion.Returned?
            && r.completion.value.fate ==
                 Joined(seq(|ps|, i requires 0 <= i < |ps| && Call(ps[i], [], host).Returned? =>
                                    Call(ps[i], [], host).value))
  {
    var ps := ListArgument(args);
    var calls := CallEach(ps, NoArgs(|ps|), host);
    CallEachStopsAtFirstThrow(ps, NoArgs(|ps|), host);
    assert calls.returned == seq(|ps|, i requires 0 <= i < |ps| && Call(ps[i], [], host).Returned? =>
                                         Call(ps[i], [], host).value);
  }

  /** A producer that throws ends `$.parallel` with its exception: later
      producers are never called and nothing is awaited. */
  lemma ThrowingProducerStopsParallel(f: nat, g: nat, e: Value, host: Host)
    requires host(f, []) == Threw(e)
    ensures Parallel([Fn(f), Fn(g)], host) == Observed([Invoke(f, [])], Threw(e))
  {
  }

  /** A single producer whose deferred resolves with the array `['one', 'two']`
      yields `[['one', 'two']]`: the one-element wrapping is kept even when the
      value is itself an array. */
  lemma SingleProducerIsWrapped(f: nat, host: Host)
    requires host(f, []) == Returned(Promisify(Arr([Str("one"), Str("two")])))
    ensures Parallel([Fn(f)], host).completion.Returned?
    ensures Parallel([Fn(f)], host).completion.value.fate
            == Resolved([Arr([Arr([Str("one"), Str("two")])])])
  {
  }

  /** Passing a deferred itself, rather than a function returning one, makes
      `$.parallel` throw once it reaches that argument. */
  lemma DeferredAsProducerThrows(f: nat, d: Value, host: Host)
    requires IsDeferred(d) && host(f, []).Returned?
    ensures Parallel([Fn(f), d], host) == Observed([Invoke(f, [])], Threw(TypeError))
  {
    assert !ListArgument([Fn(f), d])[1].Fn?;
  }
}

=== FILE: polling.dfy ===
/**
 * `$.polling(func, wait, ...args)`: a handle whose `start` arms a timer; each
 * firing counts, calls `func` with the bound arguments, and re-arms once the
 * promisified result fulfils, provided `timer` is set at that moment.
 *
 * Time is not modelled: `setTimeout` / `clearTimeout` become a set of armed
 * timer handles, and a timer elapsing is the event `Fire`. Events that cannot
 * happen in the state they meet (a cleared timer firing, a settlement with
 * nothing awaiting it) change nothing.
 */
module Polling {
  import opened JsValues
  import opened Deferreds

  datatype Handle = Handle(
    func: nat,            // the polled function
    wait: int,            // the delay in milliseconds, kept but never used by the model
    args: seq<Value>,     // the arguments bound after `wait`
    timer: Value,         // the `timer` variable: undefined, a timer id, or null
    times: nat,           // the `times` counter
    armed: set<nat>,      // timer ids scheduled and neither fired nor cleared
    resolving: set<nat>,  // firings whose action result will fulfil, continuation not yet run
    rejecting: set<nat>,  // firings whose action result will reject
    issued: nat,          // timer ids handed out so far; ids are 1, 2, ...
    log: seq<Effect>)     // the calls of `func`, in order

  datatype Event =
    | Start                                 // `polling.start()`
    | Fire(id: nat, outcome: Completion)    // timer `id` elapses; the call of `func` returns or throws
    | SettleOk(id: nat)                     // the result awaited by firing `id` fulfils
    | SettleErr(id: nat)                    // the result awaited by firing `id` rejects
    | Stop                                  // `polling.stop()`

  /** `$.polling(func, wait, ...extra)`: nothing armed, nothing counted. */
  function Create(func: Value, wait: int, extra: seq<Value>): (h: Handle)
    requires func.Fn?
    ensures h.times == 0 && h.log == [] && !Truthy(h.timer)
    ensures Idle(h) && SingleChain(h) && IntendedChain(h) && OwnAwait(h)
  {
    Handle(func.id, wait, extra, Undefined, 0, {}, {}, {}, 0, [])
  }

  /** `getTimes`: the counter, which a fresh handle starts at 0. */
  function Times(h: Handle): (n: nat)
    ensures n == h.times
  {
    h.times
  }

  /** The timer ids `clearTimeout(timer)` can cancel. */
  function Current(timer: Value): set<nat> {
    if timer.Num? && timer.n >= 0 then {timer.n as nat} else {}
  }

  /** `startPolling`: arm a fresh timer and remember its id in `timer`. */
  function StartPolling(h: Handle): (h': Handle)
    ensures Truthy(h'.timer) && Current(h'.timer) == {h'.issued}
    ensures h'.issued == h.issued + 1 && h'.armed == h.armed + {h'.issued}
    ensures h'.times == h.times && h'.log == h.log
    ensures h'.resolving == h.resolving && h'.rejecting == h.rejecting
  {
    var id := h.issued + 1;
    h.(timer := Num(id), armed := h.armed + {id}, issued := id)
  }

  /** What the `.then` of the timer callback waits for, given how the call
      of `func` completed. Nothing is awaited when the callback throws first:
      when `func` throws, or when its result passes `isDeferred`, is handed
      back unchanged by `$.promisify`, and has no callable `then`. */
  function Awaited(outcome: Completion): (a: Option<Settlement>)
    ensures a.None? <==> outcome.Threw? || ThenlessDeferred(outcome.value)
    ensures a.Some? ==> a.value == Outcome(outcome.value)
  {
    match outcome
    case Threw(_) => None
    case Returned(v) => if ThenlessDeferred(v) then None else Some(Outcome(v))
  }

  /** Whether an awaited settlement will fulfil, or will reject. */
  predicate WillFulfil(a: Option<Settlement>) {
    a.Some? && a.value.Resolved?
  }

  predicate WillReject(a: Option<Settlement>) {
    a.Some? && a.value.Rejected?
  }

  /** The timer callback with the awaited settlement given: count, call
      `func` with the bound arguments, then wait for `a`. */
  function FireWith(h: Handle, id: nat, a: Option<Settlement>): (h': Handle)
    ensures id !in h.armed ==> h' == h
    ensures id in h.armed ==>
              && h'.times == h.times + 1
              && h'.log == h.log + [Invoke(h.func, h.args)]
              && h'.armed == h.armed - {id}
              && h'.resolving == h.resolving + (if WillFulfil(a) then {id} else {})
              && h'.rejecting == h.rejecting + (if WillReject(a) then {id} else {})
    ensures h'.timer == h.timer && h'.issued == h.issued
    ensures h'.func == h.func && h'.args == h.args
  {
    if id !in h.armed then h
    else
      var fired := h.(times := h.times + 1, armed := h.armed - {id},
                      log := h.log + [Invoke(h.func, h.args)]);
      match a
      case None => fired
      case Some(Resolved(_)) => fired.(resolving := fired.resolving + {id})
      case Some(Rejected(_)) => fired.(rejecting := fired.rejecting + {id})
      case Some(Pending) => fired
  }

  /** The timer callback as written: count, call `func`, and wait for the
      promisified result. The TypeError of a result without `then` leaves the
      callback after the count and the call, with nothing awaited. */
  function FireTimer(h: Handle, id: nat, outcome: Completion): (h': Handle)
    ensures id !in h.armed ==> h' == h
    ensures id in h.armed ==>
              && h'.times == h.times + 1
              && h'.log == h.log + [Invoke(h.func, h.args)]
              && h'.armed == h.armed - {id}
              && h'.resolving == h.resolving +
                   (if outcome.Returned? && !ThenlessDeferred(outcome.value)
                       && Outcome(outcome.value).Resolved? then {id} else {})
              && h'.rejecting == h.rejecting +
                   (if outcome.Returned? && !ThenlessDeferred(outcome.value)
                       && Outcome(outcome.value).Rejected? then {id} else {})
    ensures h'.timer == h.timer && h'.issued == h.issued
  {
    FireWith(h, id, Awaited(outcome))
  }

  /** The `then` callback of firing `id`: re-arm if `timer` is set at all. */
  function Resume(h: Handle, id: nat): (h': Handle)
    ensures id !in h.resolving ==> h' == h
    ensures id in h.resolving ==> h'.resolving == h.resolving - {id}
    ensures h'.times == h.times && h'.log == h.log && h'.rejecting == h.rejecting
    // a new timer is armed exactly when an awaited result fulfils while `timer` is set
    ensures h'.issued > h.issued <==> id in h.resolving && Truthy(h.timer)
    ensures h'.issued > h.issued ==>
              && h'.issued == h.issued + 1
              && h'.armed == h.armed + {h'.issued}
              && Current(h'.timer) == {h'.issued}
    ensures h'.issued == h.issued ==> h'.armed == h.armed && h'.timer == h.timer
  {
    if id !in h.resolving then h
    else
      var resumed := h.(resolving := h.resolving - {id});
      if Truthy(resumed.timer) then StartPolling(resumed) else resumed
  }

  /** A rejected action result: `then` has no failure handler, so nothing runs. */
  function Reject(h: Handle, id: nat): (h': Handle)
    ensures h'.rejecting == h.rejecting - {id}
    ensures h'.armed == h.armed && h'.timer == h.timer && h'.issued == h.issued
    ensures h'.times == h.times && h'.resolving == h.resolving && h'.log == h.log
  {
    h.(rejecting := h.rejecting - {id})
  }

  /** `stopPolliing`: cancel the pending timer and null `timer`. */
  function StopPolling(h: Handle): (h': Handle)
    ensures !Truthy(h'.timer)
    ensures h'.armed == h.armed - Current(h.timer)
    ensures h'.times == h.times && h'.log == h.log
    ensures h'.resolving == h.resolving && h'.issued == h.issued
  {
    h.(armed := h.armed - Current(h.timer), timer := Null)
  }

  function Step(h: Handle, e: Event): Handle {
    match e
    case Start => StartPolling(h)
    case Fire(id, outcome) => FireTimer(h, id, outcome)
    case SettleOk(id) => Resume(h, id)
    case SettleErr(id) => Reject(h, id)
    case Stop => StopPolling(h)
  }

  function Replay(h: Handle, events: seq<Event>): Handle
    decreases |events|
  {
    if |events| == 0 then h else Replay(Step(h, events[0]), events[1..])
  }

  /** Over any run `times` never decreases, counts exactly the calls of
      `func` made during the run, and each of those calls gets the bound arguments. */
  lemma {:induction false} TimesCountsCalls(h: Handle, events: seq<Event>)
    ensures var h' := Replay(h, events);
            && h'.times >= h.times
            && |h'.log| >= |h.log| && h'.log[..|h.log|] == h.log
            && Times(h') - Times(h) == |h'.log| - |h.log|
            && h'.func == h.func && h'.args == h.args
            && (forall i :: |h.log| <= i < |h'.log| ==> h'.log[i] == Invoke(h.func, h.args))
    decreases |events|
  {
    if |events| > 0 {
      var next := Step(h, events[0]);
      assert next.log[..|h.log|] == h.log;
      assert forall i :: |h.log| <= i < |next.log| ==> next.log[i] == Invoke(h.func, h.args);
      TimesCountsCalls(next, events[1..]);
    }
  }

  /** Nothing armed and no fulfilling action awaited: `start` opens the only chain. */
  predicate Idle(h: Handle) {
    h.armed == {} && h.resolving == {}
  }

  /** One timer chain: any armed timer is the one `timer` holds, and there is
      at most one armed timer or awaited fulfilling action. */
  predicate SingleChain(h: Handle) {
    h.armed <= Current(h.timer) && |h.armed| + |h.resolving| <= 1
  }

  /** A client that calls `start` only on an idle handle. */
  predicate StartsWhenIdle(h: Handle, events: seq<Event>)
    decreases |events|
  {
    |events| == 0 ||
    ((events[0].Start? ==> Idle(h)) && StartsWhenIdle(Step(h, events[0]), events[1..]))
  }

  /** Every event keeps a single chain, except `start` on a busy handle. */
  lemma StepKeepsSingleChain(h: Handle, e: Event)
    requires SingleChain(h)
    requires e.Start? ==> Idle(h)
    ensures SingleChain(Step(h, e))
  {
  }

  /** With `start` called only on idle handles, no two timers are ever armed
      at once and no firing happens while a fulfilling action is awaited. */
  lemma {:induction false} AtMostOneInFlight(h: Handle, events: seq<Event>)
    requires SingleChain(h) && StartsWhenIdle(h, events)
    ensures SingleChain(Replay(h, events))
    ensures |Replay(h, events).armed| + |Replay(h, events).resolving| <= 1
    decreases |events|
  {
    if |events| > 0 {
      StepKeepsSingleChain(h, events[0]);
      AtMostOneInFlight(Step(h, events[0]), events[1..]);
    }
  }

  /** No timer armed, and any awaited fulfilling action will find `timer` null. */
  predicate Quiet(h: Handle) {
    h.armed == {} && (h.resolving == {} || !Truthy(h.timer))
  }

  predicate NoStart(events: seq<Event>) {
    forall i :: 0 <= i < |events| ==> !events[i].Start?
  }

  lemma NoStartTail(events: seq<Event>)
    requires |events| > 0 && NoStart(events)
    ensures !events[0].Start? && NoStart(events[1..])
  {
    assert forall i :: 0 <= i < |events[1..]| ==> events[1..][i] == events[i + 1];
  }

  /** A quiet handle stays quiet and never fires again until `start` is called. */
  lemma {:induction false} QuietStaysQuiet(h: Handle, events: seq<Event>)
    requires Quiet(h) && NoStart(events)
    ensures Quiet(Replay(h, events))
    ensures Replay(h, events).times == h.times
    decreases |events|
  {
    if |events| > 0 {
      NoStartTail(events);
      var next := Step(h, events[0]);
      assert Quiet(next);
      assert next.times == h.times;
      QuietStaysQuiet(next, events[1..]);
    }
  }

  /** After `stop` nothing fires again until the next `start`, even when an
      action was in flight at the time of the stop. */
  lemma {:induction false} StopEndsPolling(h: Handle, events: seq<Event>)
    requires SingleChain(h) && NoStart(events)
    ensures Replay(StopPolling(h), events).times == h.times
    ensures Replay(StopPolling(h), events).armed == {}
  {
    assert StopPolling(h).armed == {};
    QuietStaysQuiet(StopPolling(h), events);
  }

  /** An action that throws, whose result has no `then`, or whose result
      rejects never re-arms: that firing is the last until the next `start`. */
  lemma {:induction false} RejectionEndsPolling(h: Handle, id: nat, outcome: Completion, events: seq<Event>)
    requires SingleChain(h) && id in h.armed
    requires outcome.Threw? || ThenlessDeferred(outcome.value) || !Outcome(outcome.value).Resolved?
    requires NoStart(events)
    ensures Replay(FireTimer(h, id, outcome), events).times == h.times + 1
  {
    assert h.armed == Current(h.timer) == {id};
    var fired := FireTimer(h, id, outcome);
    assert fired.armed == {} && fired.resolving == {};
    QuietStaysQuiet(fired, events);
  }

  /** The polling test's run, one event at a time. */
  lemma PollingTestRun(h0: Handle)
    ensures Replay(h0, [Start, Fire(1, Returned(Undefined)), SettleOk(1),
                        Fire(2, Returned(Undefined)), SettleOk(2), Stop])
            == StopPolling(Resume(FireTimer(Resume(FireTimer(StartPolling(h0), 1, Returned(Undefined)), 1),
                                            2, Returned(Undefined)), 2))
  {
    var es := [Start, Fire(1, Returned(Undefined)), SettleOk(1),
               Fire(2, Returned(Undefined)), SettleOk(2), Stop];
    assert es[1..][1..] == es[2..];
    assert es[2..][1..] == es[3..];
    assert es[3..][1..] == es[4..];
    assert es[4..][1..] == es[5..];
    assert es[5..][1..] == [];
  }

  /** One cycle of a synchronous action: the armed timer fires, `func`
      returns a plain value, and the continuation arms the next timer. */
  lemma SyncCycle(h: Handle, v: Value)
    requires h.issued > 0 && h.armed == {h.issued} && h.timer == Num(h.issued) && h.resolving == {}
    requires !IsDeferred(v)
    ensures var h' := Resume(FireTimer(h, h.issued, Returned(v)), h.issued);
            && h'.armed == {h'.issued} && h'.timer == Num(h'.issued) && h'.resolving == {}
            && h'.issued == h.issued + 1
            && h'.times == h.times + 1 && h'.log == h.log + [Invoke(h.func, h.args)]
            && h'.func == h.func && h'.args == h.args
  {
    var fired := FireTimer(h, h.issued, Returned(v));
    assert fired.armed == {} && fired.resolving == {h.issued};
  }

  /** The scenario of the polling test with a synchronous action: start, two
      firings each followed by the fulfilment of the promisified `undefined`,
      then stop, leaves the count at 2 with `func` called twice with the bound `2`. */
  lemma PollingTestScenario(f: nat, later: seq<Event>)
    requires NoStart(later)
    ensures var h := Replay(Create(Fn(f), 100, [Num(2)]),
                            [Start, Fire(1, Returned(Undefined)), SettleOk(1),
                             Fire(2, Returned(Undefined)), SettleOk(2), Stop]);
            && Times(h) == 2
            && h.log == [Invoke(f, [Num(2)]), Invoke(f, [Num(2)])]
            && Times(Replay(h, later)) == 2
  {
    var h0 := Create(Fn(f), 100, [Num(2)]);
    PollingTestRun(h0);
    var h1 := StartPolling(h0);
    SyncCycle(h1, Undefined);
    var h3 := Resume(FireTimer(h1, 1, Returned(Undefined)), 1);
    SyncCycle(h3, Undefined);
    var h5 := Resume(FireTimer(h3, 2, Returned(Undefined)), 2);
    assert h5.log == [Invoke(f, [Num(2)])] + [Invoke(f, [Num(2)])];
    StopEndsPolling(h5, later);
  }

  // ---------------------------------------------------------------------------
  // The continuation re-arms whenever `timer` is truthy, whichever timer set it.
  // After `stop` and a new `start` while an action is in flight, the old
  // continuation finds the new timer set and arms a second chain, so two
  // chains call `func` until the next `stop`. That `stop` cancels only the
  // newest timer; the other one still fires once, and then polling ends.
  // ---------------------------------------------------------------------------

  /** The stop-then-start run, one event at a time, under both continuations. */
  lemma StopStartRun(h0: Handle)
    ensures var es := [Start, Fire(1, Returned(Undefined)), Stop, Start, SettleOk(1)];
            var h4 := StartPolling(StopPolling(FireTimer(StartPolling(h0), 1, Returned(Undefined))));
            && Replay(h0, es) == Resume(h4, 1)
            && ReplayIntended(h0, es) == ResumeIntended(h4, 1)
  {
    var es := [Start, Fire(1, Returned(Undefined)), Stop, Start, SettleOk(1)];
    assert es[1..] == [Fire(1, Returned(Undefined)), Stop, Start, SettleOk(1)];
    assert es[1..][1..] == [Stop, Start, SettleOk(1)];
    assert es[1..][1..][1..] == [Start, SettleOk(1)];
    assert es[1..][1..][1..][1..] == [SettleOk(1)];
  }

  /** A stop followed by a firing of timer 2, under both continuations. */
  lemma StopThenFireRun(h: Handle)
    ensures Replay(h, [Stop, Fire(2, Returned(Undefined))])
            == FireTimer(StopPolling(h), 2, Returned(Undefined))
    ensures ReplayIntended(h, [Stop, Fire(2, Returned(Undefined))])
            == FireTimer(StopPolling(h), 2, Returned(Undefined))
  {
    var tail := [Stop, Fire(2, Returned(Undefined))];
    assert tail[1..] == [Fire(2, Returned(Undefined))];
  }

  /** The states of the stop-then-start run: before the old action fulfils,
      the first chain's action is awaited and the second `start` has armed
      timer 2. The fulfilment then re-arms as written, but not as intended. */
  lemma StopStartState(h0: Handle)
    requires h0.issued == 0 && h0.armed == {} && h0.resolving == {} && h0.times == 0
    ensures var h4 := StartPolling(StopPolling(FireTimer(StartPolling(h0), 1, Returned(Undefined))));
            && h4.armed == {2} && h4.resolving == {1} && h4.timer == Num(2)
            && h4.issued == 2 && h4.times == 1
            && Resume(h4, 1).armed == {2, 3} && Resume(h4, 1).timer == Num(3)
            && Resume(h4, 1).times == 1
            && ResumeIntended(h4, 1) == h4.(resolving := {})
  {
    var h2 := FireTimer(StartPolling(h0), 1, Returned(Undefined));
    assert h2.armed == {} && h2.resolving == {1};
  }

  /** As written: start, a firing whose action is still in flight, stop, start,
      and the fulfilment of the old action leave two timers armed; after a
      further stop the surviving timer still fires and calls `func`. */
  lemma StopStartOpensSecondChain(f: nat)
    ensures var h := Replay(Create(Fn(f), 100, []),
                            [Start, Fire(1, Returned(Undefined)), Stop, Start, SettleOk(1)]);
            && h.armed == {2, 3} && !SingleChain(h)
            && Times(Replay(h, [Stop, Fire(2, Returned(Undefined))])) == 2
  {
    var h0 := Create(Fn(f), 100, []);
    StopStartRun(h0);
    StopStartState(h0);
    var h5 := Resume(StartPolling(StopPolling(FireTimer(StartPolling(h0), 1, Returned(Undefined)))), 1);
    assert 2 in h5.armed && 2 !in Current(h5.timer);
    StopThenFireRun(h5);
  }

  /** Timer ids are handed out in increasing order: `timer` is unset, null,
      or holds the newest id, and no armed or awaited firing has a newer one. */
  predicate WellIssued(h: Handle) {
    && (h.timer == Undefined || h.timer == Null || (h.timer == Num(h.issued) && h.issued > 0))
    && (forall id :: id in h.armed ==> id <= h.issued)
    && (forall id :: id in h.resolving ==> id <= h.issued)
  }

  /** The continuation as evidently intended: re-arm only while `timer` still
      holds the id of the firing whose result fulfilled, so a `stop` since
      then, followed by a new `start` or not, ends that chain. */
  function ResumeIntended(h: Handle, id: nat): (h': Handle)
    ensures id !in h.resolving ==> h' == h
    ensures id in h.resolving ==> h'.resolving == h.resolving - {id}
    ensures h'.times == h.times && h'.log == h.log && h'.rejecting == h.rejecting
    ensures h'.issued > h.issued <==> id in h.resolving && h.timer == Num(id)
    ensures h'.issued > h.issued ==>
              && h'.issued == h.issued + 1
              && h'.armed == h.armed + {h'.issued}
              && Current(h'.timer) == {h'.issued}
    ensures h'.issued == h.issued ==> h'.armed == h.armed && h'.timer == h.timer
  {
    if id !in h.resolving then h
    else
      var resumed := h.(resolving := h.resolving - {id});
      if resumed.timer == Num(id) then StartPolling(resumed) else resumed
  }

  function StepIntended(h: Handle, e: Event): Handle {
    match e
    case SettleOk(id) => ResumeIntended(h, id)
    case _ => Step(h, e)
  }

  function ReplayIntended(h: Handle, events: seq<Event>): Handle
    decreases |events|
  {
    if |events| == 0 then h else ReplayIntended(StepIntended(h, events[0]), events[1..])
  }

  /** The intended single chain: any armed timer is the one `timer` holds, and
      the current chain has at most one armed timer or awaited fulfilling
      action. Awaited actions of earlier chains may remain, but are inert. */
  predicate IntendedChain(h: Handle) {
    && WellIssued(h)
    && h.armed <= Current(h.timer)
    && |h.armed| + |h.resolving * Current(h.timer)| <= 1
  }

  /** A client that calls `start` only while polling is not running: before
      the first `start` or after a `stop`. */
  predicate StartsWhenStopped(h: Handle, events: seq<Event>)
    decreases |events|
  {
    |events| == 0 ||
    ((events[0].Start? ==> !Truthy(h.timer)) && StartsWhenStopped(StepIntended(h, events[0]), events[1..]))
  }

  lemma StartKeepsIntendedChain(h: Handle)
    requires IntendedChain(h) && !Truthy(h.timer)
    ensures IntendedChain(StartPolling(h))
  {
    var h' := StartPolling(h);
    assert Current(h.timer) == {};
    assert h'.issued !in h.resolving;
    assert h'.resolving * Current(h'.timer) == {};
  }

  lemma FireKeepsIntendedChain(h: Handle, id: nat, outcome: Completion)
    requires IntendedChain(h)
    ensures IntendedChain(FireTimer(h, id, outcome))
  {
    if id in h.armed {
      var h' := FireTimer(h, id, outcome);
      assert h.armed == {id} == Current(h.timer);
      assert h.resolving * Current(h.timer) == {};
      assert h'.resolving * Current(h'.timer) <= {id};
    }
  }

  lemma ResumeKeepsIntendedChain(h: Handle, id: nat)
    requires IntendedChain(h)
    ensures IntendedChain(ResumeIntended(h, id))
  {
    var h' := ResumeIntended(h, id);
    if id in h.resolving && h.timer == Num(id) {
      assert id in h.resolving * Current(h.timer);
      assert h.armed == {};
      assert h'.issued !in h'.resolving;
      assert h'.resolving * Current(h'.timer) == {};
    } else if id in h.resolving {
      assert id !in Current(h.timer);
      assert h'.resolving * Current(h'.timer) == h.resolving * Current(h.timer);
    }
  }

  /** Every event keeps the intended single chain, `start` included as long
      as polling is stopped. */
  lemma IntendedStepKeepsChain(h: Handle, e: Event)
    requires IntendedChain(h)
    requires e.Start? ==> !Truthy(h.timer)
    ensures IntendedChain(StepIntended(h, e))
  {
    match e
    case Start => StartKeepsIntendedChain(h);
    case Fire(id, outcome) => FireKeepsIntendedChain(h, id, outcome);
    case SettleOk(id) => ResumeKeepsIntendedChain(h, id);
    case SettleErr(_) =>
    case Stop =>
  }

  /** With `start` called only while polling is stopped, the intended
      continuation keeps a single chain: at most one timer is ever armed. */
  lemma {:induction false} IntendedKeepsSingleChain(h: Handle, events: seq<Event>)
    requires IntendedChain(h) && StartsWhenStopped(h, events)
    ensures IntendedChain(ReplayIntended(h, events))
    ensures |ReplayIntended(h, events).armed| <= 1
    decreases |events|
  {
    if |events| > 0 {
      IntendedStepKeepsChain(h, events[0]);
      IntendedKeepsSingleChain(StepIntended(h, events[0]), events[1..]);
    }
  }

  /** A single chain in which an awaited fulfilling action, while `timer` is
      set, is the firing of the timer `timer` holds. Timer ids start at 1. */
  predicate OwnAwait(h: Handle) {
    && SingleChain(h)
    && 0 !in h.armed && 0 !in h.resolving
    && (forall id :: id in h.resolving && Truthy(h.timer) ==> h.timer == Num(id))
  }

  lemma StartKeepsOwnAwait(h: Handle)
    requires Idle(h)
    ensures OwnAwait(StartPolling(h))
  {
  }

  lemma FireKeepsOwnAwait(h: Handle, id: nat, outcome: Completion)
    requires OwnAwait(h)
    ensures OwnAwait(FireTimer(h, id, outcome))
  {
    if id in h.armed {
      assert h.armed == {id} == Current(h.timer) && h.resolving == {};
    }
  }

  /** Where an awaited action is tied to the current timer, the corrected
      continuation is the one as written. */
  lemma ResumeAgrees(h: Handle, id: nat)
    requires OwnAwait(h)
    ensures ResumeIntended(h, id) == Resume(h, id)
    ensures OwnAwait(Resume(h, id))
  {
    if id in h.resolving {
      var others := h.resolving - {id};
      assert h.resolving == others + {id} && id !in others;
      assert |others| == 0 && |h.armed| == 0;
    }
  }

  lemma StopKeepsOwnAwait(h: Handle)
    requires OwnAwait(h)
    ensures OwnAwait(StopPolling(h))
  {
    assert StopPolling(h).armed == {};
  }

  /** On a well-behaved step the two continuations do the same thing, and
      the step keeps the awaited action tied to the current timer. */
  lemma StepAgrees(h: Handle, e: Event)
    requires OwnAwait(h)
    requires e.Start? ==> Idle(h)
    ensures StepIntended(h, e) == Step(h, e)
    ensures OwnAwait(Step(h, e))
  {
    match e
    case Start => StartKeepsOwnAwait(h);
    case Fire(id, outcome) => FireKeepsOwnAwait(h, id, outcome);
    case SettleOk(id) => ResumeAgrees(h, id);
    case SettleErr(_) =>
    case Stop => StopKeepsOwnAwait(h);
  }

  /** The correction changes nothing for clients that call `start` only on
      idle handles: every such run goes exactly as the code as written. */
  lemma {:induction false} IntendedAgreesWhenStartsIdle(h: Handle, events: seq<Event>)
    requires OwnAwait(h) && StartsWhenIdle(h, events)
    ensures ReplayIntended(h, events) == Replay(h, events)
    decreases |events|
  {
    if |events| > 0 {
      StepAgrees(h, events[0]);
      IntendedAgreesWhenStartsIdle(Step(h, events[0]), events[1..]);
    }
  }

  /** Stopped: nothing armed, and `timer` holds no id. */
  predicate Halted(h: Handle) {
    h.armed == {} && !h.timer.Num?
  }

  /** A halted handle stays halted, and uncounted, until `start`. */
  lemma {:induction false} HaltedStaysHalted(h: Handle, events: seq<Event>)
    requires Halted(h) && NoStart(events)
    ensures Halted(ReplayIntended(h, events))
    ensures ReplayIntended(h, events).times == h.times
    decreases |events|
  {
    if |events| > 0 {
      NoStartTail(events);
      HaltedStaysHalted(StepIntended(h, events[0]), events[1..]);
    }
  }

  /** With the intended continuation, after `stop` nothing fires again until
      the next `start`, whatever was awaited at the time. */
  lemma {:induction false} IntendedStopEndsPolling(h: Handle, events: seq<Event>)
    requires IntendedChain(h) && NoStart(events)
    ensures Halted(ReplayIntended(StopPolling(h), events))
    ensures ReplayIntended(StopPolling(h), events).times == h.times
  {
    HaltedStaysHalted(StopPolling(h), events);
  }

  /** The run that opens a second chain as written keeps a single chain with
      the intended continuation, and the final `stop` ends polling. */
  lemma IntendedStopStartKeepsOneChain(f: nat)
    ensures var h := ReplayIntended(Create(Fn(f), 100, []),
                                    [Start, Fire(1, Returned(Undefined)), Stop, Start, SettleOk(1)]);
            && h.armed == {2} && IntendedChain(h)
            && Times(ReplayIntended(h, [Stop, Fire(2, Returned(Undefined))])) == 1
  {
    var h0 := Create(Fn(f), 100, []);
    StopStartRun(h0);
    StopStartState(h0);
    var h5 := ResumeIntended(StartPolling(StopPolling(FireTimer(StartPolling(h0), 1, Returned(Undefined)))), 1);
    StopThenFireRun(h5);
    assert StopPolling(h5).armed == {};
  }

  // ---------------------------------------------------------------------------
  // `isDeferred` accepts any value with a callable `promise`, and `$.promisify`
  // hands such a value back unchanged, so the timer callback calls `.then` on
  // it. A result with `promise` but no `then`, such as a jQuery collection,
  // makes the callback throw after the count and the call: nothing is awaited
  // and polling stops after that firing.
  // ---------------------------------------------------------------------------

  /** A resolved deferred-looking value that has a `promise` method and no `then`. */
  function ThenlessResult(): (v: Value)
    ensures ThenlessDeferred(v) && Outcome(v) == Resolved([])
  {
    Obj(map["promise" := Fn(PromiseMethod)], map[], Resolved([]))
  }

  /** The first firing of a new handle, with its action returning `v`. */
  lemma FirstFireRun(h0: Handle, v: Value)
    ensures Replay(h0, [Start, Fire(1, Returned(v)), SettleOk(1)])
            == Resume(FireTimer(StartPolling(h0), 1, Returned(v)), 1)
  {
    var es := [Start, Fire(1, Returned(v)), SettleOk(1)];
    assert es[1..] == [Fire(1, Returned(v)), SettleOk(1)];
    assert es[1..][1..] == [SettleOk(1)];
    assert es[1..][1..][1..] == [];
    var h1 := StartPolling(h0);
    var h2 := FireTimer(h1, 1, Returned(v));
    assert Replay(h0, es) == Replay(h1, es[1..]);
    assert Replay(h1, es[1..]) == Replay(h2, [SettleOk(1)]);
    assert Replay(h2, [SettleOk(1)]) == Replay(Resume(h2, 1), []);
  }

  /** As written: an action returning an already resolved value with `promise`
      but no `then` is called once, and polling never fires again without a
      new `start`. */
  lemma ThenlessResultStopsPolling(f: nat, later: seq<Event>)
    requires NoStart(later)
    ensures var h := Replay(Create(Fn(f), 100, []), [Start, Fire(1, Returned(ThenlessResult())), SettleOk(1)]);
            && h.armed == {} && h.resolving == {} && Times(h) == 1
            && Times(Replay(h, later)) == 1
  {
    var h0 := Create(Fn(f), 100, []);
    FirstFireRun(h0, ThenlessResult());
    var h := Resume(FireTimer(StartPolling(h0), 1, Returned(ThenlessResult())), 1);
    assert h.armed == {} && h.resolving == {};
    QuietStaysQuiet(h, later);
  }

  /** As evidently intended: a returned value that passes `isDeferred` is
      awaited through its own promise, so only a throw of `func` leaves the
      callback before anything is awaited. */
  function AwaitedIntended(outcome: Completion): (a: Option<Settlement>)
    ensures a.None? <==> outcome.Threw?
    ensures a.Some? ==> a.value == Outcome(outcome.value)
  {
    match outcome
    case Threw(_) => None
    case Returned(v) => Some(Outcome(v))
  }

  /** The timer callback as evidently intended: every returned result is
      awaited, and the firing re-arms exactly when that result fulfils. */
  function FireTimerIntended(h: Handle, id: nat, outcome: Completion): (h': Handle)
    ensures id !in h.armed ==> h' == h
    ensures id in h.armed ==>
              && h'.times == h.times + 1
              && h'.log == h.log + [Invoke(h.func, h.args)]
              && h'.armed == h.armed - {id}
              && h'.resolving == h.resolving +
                   (if outcome.Returned? && Outcome(outcome.value).Resolved? then {id} else {})
              && h'.rejecting == h.rejecting +
                   (if outcome.Returned? && Outcome(outcome.value).Rejected? then {id} else {})
    ensures h'.timer == h.timer && h'.issued == h.issued
  {
    FireWith(h, id, AwaitedIntended(outcome))
  }

  /** The correction changes a firing exactly when its action returns a
      settling result that has `promise` but no `then`, and that firing was
      not already awaited the same way. */
  lemma FireTimerIntendedAgrees(h: Handle, id: nat, outcome: Completion)
    ensures FireTimerIntended(h, id, outcome) != FireTimer(h, id, outcome) <==>
              && id in h.armed && outcome.Returned? && ThenlessDeferred(outcome.value)
              && ((Outcome(outcome.value).Resolved? && id !in h.resolving)
                  || (Outcome(outcome.value).Rejected? && id !in h.rejecting))
  {
    if id in h.armed && outcome.Returned? && ThenlessDeferred(outcome.value) {
      var a := FireTimerIntended(h, id, outcome);
      var b := FireTimer(h, id, outcome);
      if Outcome(outcome.value).Resolved? && id !in h.resolving {
        assert id in a.resolving && id !in b.resolving;
      } else if Outcome(outcome.value).Rejected? && id !in h.rejecting {
        assert id in a.rejecting && id !in b.rejecting;
      }
    }
  }

  /** With the correction, the run that stops as written keeps polling: the
      resolved result re-arms the timer. */
  lemma ThenlessResultKeepsPollingIntended(f: nat)
    ensures var h := Resume(FireTimerIntended(StartPolling(Create(Fn(f), 100, [])), 1,
                                              Returned(ThenlessResult())), 1);
            && h.armed == {2} && h.timer == Num(2) && Times(h) == 1
  {
    var h1 := StartPolling(Create(Fn(f), 100, []));
    assert h1.armed == {1} && h1.timer == Num(1);
    var h2 := FireTimerIntended(h1, 1, Returned(ThenlessResult()));
    assert h2.resolving == {1};
  }
}

=== FILE: series.dfy ===
/**
 * `$.series(steps, initialValue)` / `$.series(f1, f2, ...)`: a left fold of
 * `then` links, each step receiving the resolve arguments of the previous
 * one, with one outer deferred that the first failure rejects.
 */
module Series {
  import opened JsValues
  import opened Deferreds

  /** The settlement of link i+1 once link i has rejected and its failure
      handler `defer.reject` has run. It depends on how the jQuery version in
      use treats the value `defer.reject` returns, so it is left open. */
  type Recovery = (nat, seq<Value>) -> Settlement

  /** How the promise a `then` link returns settles, given what its callback
      did: a returned value is promisified, and a thrown value rejects the
      link, as jQuery 3's `then` does. */
  function ThenResult(c: Completion): (s: Settlement)
    ensures c.Threw? ==> s == Rejected([c.error])
    ensures c.Returned? ==> s == Outcome(c.value)
  {
    match c
    case Returned(v) => Outcome(v)
    case Threw(e) => Rejected([e])
  }

  /** The argument given to the first step: the second argument in the array
      form (`undefined` when missing), `''` in the variadic form. */
  function InitialValue(args: seq<Value>): (v: Value)
    ensures !IsArrayCall(args) ==> v == Str("")
    ensures IsArrayCall(args) && |args| >= 2 ==> v == args[1]
    ensures IsArrayCall(args) && |args| < 2 ==> v == Undefined
  {
    if IsArrayCall(args) then ArgAt(args, 1) else Str("")
  }

  /** Reference semantics of sequential threading: call the steps in order,
      each with the resolve arguments of the one before, and stop at the first
      step whose result does not resolve. */
  function Thread(steps: seq<Value>, input: seq<Value>, host: Host): Settlement
    decreases |steps|
  {
    if |steps| == 0 then Resolved(input)
    else
      match ThenResult(Call(steps[0], input, host))
      case Resolved(next) => Thread(steps[1..], next, host)
      case other => other
  }

  /** Continue a settlement with further steps. */
  function AndThen(s: Settlement, steps: seq<Value>, host: Host): Settlement {
    match s
    case Resolved(a) => Thread(steps, a, host)
    case other => other
  }

  /** The reduce as written: `link` is the promise of `then` link i and
      `outer` the state of `defer`. A resolved link calls step i; a rejected
      link calls `defer.reject`; after the last link `then(defer.resolve,
      defer.reject)` settles `defer`. The result is the final state of `defer`. */
  function Chain(steps: seq<Value>, i: nat, link: Settlement, outer: Settlement,
                 host: Host, recovery: Recovery): (r: Settlement)
    requires i <= |steps|
    // `defer` never returns to unsettled
    ensures r.Pending? ==> outer.Pending?
    // the last link settles an unsettled `defer` as it settles itself
    ensures i == |steps| && outer.Pending? ==> r == link
    decreases |steps| - i
  {
    if i == |steps| then
      if link.Pending? then outer else Settle(outer, link)
    else
      match link
      case Resolved(a) => Chain(steps, i + 1, ThenResult(Call(steps[i], a, host)), outer, host, recovery)
      case Rejected(e) => Chain(steps, i + 1, recovery(i, e), Settle(outer, Rejected(e)), host, recovery)
      case Pending => Chain(steps, i + 1, Pending, outer, host, recovery)
  }

  /** Once `defer` has settled, nothing later in the chain changes it. */
  lemma {:induction false} SettledOuterIsFinal(steps: seq<Value>, i: nat, link: Settlement,
                                               outer: Settlement, host: Host, recovery: Recovery)
    requires i <= |steps|
    requires !outer.Pending?
    ensures Chain(steps, i, link, outer, host, recovery) == outer
    decreases |steps| - i
  {
    if i < |steps| {
      match link
      case Resolved(a) =>
        SettledOuterIsFinal(steps, i + 1, ThenResult(Call(steps[i], a, host)), outer, host, recovery);
      case Rejected(e) =>
        SettledOuterIsFinal(steps, i + 1, recovery(i, e), Settle(outer, Rejected(e)), host, recovery);
      case Pending =>
        SettledOuterIsFinal(steps, i + 1, Pending, outer, host, recovery);
    }
  }

  /** A link that never settles leaves `defer` as it is. */
  lemma {:induction false} PendingLinkIsInert(steps: seq<Value>, i: nat, outer: Settlement,
                                              host: Host, recovery: Recovery)
    requires i <= |steps|
    ensures Chain(steps, i, Pending, outer, host, recovery) == outer
    decreases |steps| - i
  {
    if i < |steps| {
      PendingLinkIsInert(steps, i + 1, outer, host, recovery);
    }
  }

  /** From a resolved link and an unsettled `defer`, the chain as written ends
      in the reference settlement, whatever `recovery` does. */
  lemma {:induction false} ChainFollowsThread(steps: seq<Value>, i: nat, a: seq<Value>,
                                              host: Host, recovery: Recovery)
    requires i <= |steps|
    ensures Chain(steps, i, Resolved(a), Pending, host, recovery) == Thread(steps[i..], a, host)
    decreases |steps| - i
  {
    assert forall j :: 0 <= j < |steps[i..]| ==> steps[i..][j] == steps[i + j];
    if i < |steps| {
      assert steps[i..][0] == steps[i];
      assert steps[i..][1..] == steps[i + 1..];
      match ThenResult(Call(steps[i], a, host))
      case Resolved(b) =>
        ChainFollowsThread(steps, i + 1, b, host, recovery);
      case Rejected(e) =>
        if i + 1 < |steps| {
          SettledOuterIsFinal(steps, i + 2, recovery(i + 1, e), Rejected(e), host, recovery);
        }
      case Pending =>
        PendingLinkIsInert(steps, i + 1, Pending, host, recovery);
    }
  }

  /** `$.series`: the returned promise settles as the reference fold over the
      steps, starting from the initial value, whatever the jQuery version does
      with the links after a failure. */
  function Series(args: seq<Value>, host: Host, recovery: Recovery): (r: Value)
    ensures IsDeferred(r) && !IsAjax(r) && r.Obj?
    ensures r.fate == Thread(ListArgument(args), [InitialValue(args)], host)
    ensures |ListArgument(args)| == 0 ==> r.fate == Resolved([InitialValue(args)])
  {
    var steps := ListArgument(args);
    ChainFollowsThread(steps, 0, [InitialValue(args)], host, recovery);
    assert steps[0..] == steps;
    PromiseOf(Chain(steps, 0, Resolved([InitialValue(args)]), Pending, host, recovery))
  }

  /** Running a list of steps is running its first part, then the rest from
      where the first part resolved. */
  lemma {:induction false} ThreadAppend(p: seq<Value>, q: seq<Value>, a: seq<Value>, host: Host)
    ensures Thread(p + q, a, host) == AndThen(Thread(p, a, host), q, host)
    decreases |p|
  {
    assert forall j :: 0 <= j < |p + q| ==> (p + q)[j] == if j < |p| then p[j] else q[j - |p|];
    if |p| > 0 {
      assert (p + q)[0] == p[0];
      assert (p + q)[1..] == p[1..] + q;
      match ThenResult(Call(p[0], a, host))
      case Resolved(b) => ThreadAppend(p[1..], q, b, host);
      case Rejected(e) =>
      case Pending =>
    } else {
      assert p + q == q;
    }
  }

  /** First failure wins: if the steps before step k resolve and step k's
      result rejects with `e`, the promise `$.series` returns rejects with `e`. */
  lemma {:induction false} FirstFailureRejects(args: seq<Value>, host: Host, recovery: Recovery,
                                               k: nat, a: seq<Value>, e: seq<Value>)
    requires k < |ListArgument(args)|
    requires Thread(ListArgument(args)[..k], [InitialValue(args)], host) == Resolved(a)
    requires ThenResult(Call(ListArgument(args)[k], a, host)) == Rejected(e)
    ensures Series(args, host, recovery).fate == Rejected(e)
  {
    var steps := ListArgument(args);
    assert steps == steps[..k] + steps[k..];
    ThreadAppend(steps[..k], steps[k..], [InitialValue(args)], host);
    assert steps[k..][0] == steps[k];
  }

  /** When every step resolves, the result is the resolve arguments of the
      last step, which received those of the step before it. */
  lemma {:induction false} LastStepDecides(args: seq<Value>, host: Host, recovery: Recovery,
                                           a: seq<Value>, b: seq<Value>)
    requires |ListArgument(args)| > 0
    requires var n := |ListArgument(args)|;
             Thread(ListArgument(args)[..n - 1], [InitialValue(args)], host) == Resolved(a)
    requires ThenResult(Call(ListArgument(args)[|ListArgument(args)| - 1], a, host)) == Resolved(b)
    ensures Series(args, host, recovery).fate == Resolved(b)
  {
    var steps := ListArgument(args);
    var n := |steps|;
    assert steps == steps[..n - 1] + [steps[n - 1]];
    ThreadAppend(steps[..n - 1], [steps[n - 1]], [InitialValue(args)], host);
    assert [steps[n - 1]][1..] == [];
    assert Thread([steps[n - 1]], a, host) == Thread([], b, host);
  }

  /** A synchronous pure step: a function that always returns, and never
      returns a deferred. */
  ghost predicate PlainStep(f: Value, host: Host) {
    f.Fn? && forall a :: host(f.id, a).Returned? && !IsDeferred(host(f.id, a).value)
  }

  ghost predicate PlainSteps(steps: seq<Value>, host: Host) {
    forall i :: 0 <= i < |steps| ==> PlainStep(steps[i], host)
  }

  /** The composition `f_n(... f_2(f_1(v)))` of single-argument calls. */
  ghost function Compose(steps: seq<Value>, v: Value, host: Host): Value
    requires PlainSteps(steps, host)
    decreases |steps|
  {
    if |steps| == 0 then v
    else
      var n := |steps|;
      assert PlainStep(steps[n - 1], host);
      host(steps[n - 1].id, [Compose(steps[..n - 1], v, host)]).value
  }

  lemma {:induction false} PlainThreadComposes(steps: seq<Value>, v: Value, host: Host)
    requires PlainSteps(steps, host)
    ensures Thread(steps, [v], host) == Resolved([Compose(steps, v, host)])
    decreases |steps|
  {
    if |steps| > 0 {
      var n := |steps|;
      var init := steps[..n - 1];
      assert steps == init + [steps[n - 1]];
      assert PlainSteps(init, host);
      PlainThreadComposes(init, v, host);
      ThreadAppend(init, [steps[n - 1]], [v], host);
      var w := Compose(init, v, host);
      assert PlainStep(steps[n - 1], host);
      var x := host(steps[n - 1].id, [w]).value;
      assert Call(steps[n - 1], [w], host) == Returned(x);
      assert [steps[n - 1]][1..] == [];
      assert Thread([steps[n - 1]], [w], host) == Thread([], [x], host);
    }
  }

  /** With synchronous pure steps `$.series` resolves with their composition
      applied to the initial value. */
  lemma {:induction false} PlainSeriesComposes(args: seq<Value>, host: Host, recovery: Recovery)
    requires PlainSteps(ListArgument(args), host)
    ensures Series(args, host, recovery).fate
            == Resolved([Compose(ListArgument(args), InitialValue(args), host)])
  {
    PlainThreadComposes(ListArgument(args), InitialValue(args), host);
  }

  /** The variadic form starts from `''`; with no steps at all it resolves with `''`. */
  lemma VariadicStartsFromEmptyString(args: seq<Value>, host: Host, recovery: Recovery)
    requires |args| > 0 && args[0].Fn?
    ensures ListArgument(args) == args
    ensures Series(args, host, recovery).fate == AndThen(Resolved([Str("")]), args, host)
    ensures Series([], host, recovery).fate == Resolved([Str("")])
  {
  }
}
